=== FILE: README.md ===
# DAL notifier — a Dafny model

The repository is two batch scripts that watch the New York State Department
of Health listing of *Dear Administrator Letters* (DALs):

- `scrape_2025_dal_links.py` harvests the anchors of the 2025 section of the
  listing page, shapes one record per anchor (`dal_title`, `dal_url`,
  `updated_at`) and appends to the `dal_tracker` table every record whose
  `dal_url` is not already stored.
- `dal_notifier.py` reads the `href` of the first anchor on the page whose
  `href` contains `dear_administrator_letters` (possibly a link to the listing
  page itself rather than to a letter), absolutises it,
  compares it with the `last_url` pointer read from `dal_tracker`, and when the
  two differ fetches the letter text, asks a language model for a summary of
  its first 4000 characters, mails the summary and writes the new URL into the
  pointer row with `id == 1`.

This project models the logic under that I/O plumbing, in five modules:

- `Wrappers` — `Option`, Python's `None`-or-value.
- `Strings` — Python's `str.strip()`: the `str.isspace()` character set, the
  strip itself, and its characterisation as the unique trimmed infix with only
  whitespace around it.
- `Harvest` — the record-shaping loop. `urljoin` is the `join` parameter and
  `datetime.utcnow().isoformat()` is a `clock` parameter read once per anchor.
- `Ingest` — the check-then-append loop over the letters table, an in-memory
  sequence of rows. Each lookup sees the rows inserted earlier in the same
  batch. `NewRecords` is an independent reference definition of what a batch
  adds: the records whose URL is neither in the old table nor carried by an
  earlier record of the batch.
- `Notifier` — link absolutisation, the pointer read and update, the prompt,
  the mail status report, and one run of `main` as a pure function `Run` over
  the pointer table. The page text, the language model and the mail API are
  the `Services` parameter. A run's result lists its external steps
  (`FetchText`, `Summarize`, `SendEmail`, `AdvancePointer`) in order.

Behaviour of the code worth knowing:

- The pointer advances even when the send fails: `send_summary_email` only
  prints and returns nothing (`dal_notifier.py:85-88`, `:100-101`); see
  `PointerAdvancesOnFailedSend`.
- Only status 200 counts as sent (`dal_notifier.py:85`); see `DeliveryOf`.
- `update_last_seen_url` never inserts the id-1 row (`dal_notifier.py:31`).
  Without such a row the pointer never moves, so every run mails the same
  letter again; see `NoTargetRowNotifiesEveryRun`.
- Neither script has a per-record failure path; a failing store or page call
  raises and ends the run (read from the code; exceptions are not modelled,
  see Left out).

## Model

| member | source | states |
|---|---|---|
| Strings.Strip | scrape_2025_dal_links.py:37-38 | `strip()` returns a string with no whitespace at either end and no longer than its argument |
| Strings.StripPadded | scrape_2025_dal_links.py:37-38 | the stripped string is an infix of the argument with only whitespace before and after it |
| Strings.StripUnique | scrape_2025_dal_links.py:37-38 | any split of a string into whitespace, a non-empty trimmed middle and whitespace has that middle as its strip |
| Strings.StripTrimmed | scrape_2025_dal_links.py:37-38 | a string with no whitespace at either end is its own strip |
| Strings.StripIdempotent | scrape_2025_dal_links.py:37-38 | stripping twice equals stripping once |
| Harvest.ShapeRecords | scrape_2025_dal_links.py:31-40 | one record per scraped anchor, in anchor order: title is the stripped anchor text, URL is the stripped join of the base URL and the `href`, timestamp is the clock reading for that anchor |
| Ingest.InsertOne | scrape_2025_dal_links.py:49-54 | a record is appended exactly when no row has its URL; existing rows stay in place; afterwards its URL is present |
| Ingest.InsertDals | scrape_2025_dal_links.py:46-54 | ingesting a batch keeps the old table as a prefix of the new one |
| Ingest.InsertDalsSnoc | scrape_2025_dal_links.py:47-52 | ingesting a batch and then one more record equals ingesting the longer batch (each check sees the earlier inserts) |
| Ingest.HasUrlAfterInsert | scrape_2025_dal_links.py:47-52 | after ingestion a URL is stored iff it was stored before or the batch carried it |
| Ingest.InsertDalsAppendsNew | scrape_2025_dal_links.py:47-52 | the final table is the old table followed by exactly the reference list of new records, in input order |
| Ingest.InsertedIffUnseen | scrape_2025_dal_links.py:49-52 | the batch's i-th record is appended at its check iff its URL is neither in the old table nor on an earlier record of the batch; otherwise the table is unchanged |
| Ingest.AllUrlsPresent | scrape_2025_dal_links.py:47-52 | every URL of the batch is in the table afterwards |
| Ingest.InsertOneNoDup | scrape_2025_dal_links.py:49-52 | one checked insert keeps URLs unique |
| Ingest.NoDupPreserved | scrape_2025_dal_links.py:49-52 | a table without duplicate URLs has none after a batch, even one that repeats a URL |
| Ingest.InsertPresentIsNoOp | scrape_2025_dal_links.py:49-54 | a batch whose URLs are all stored leaves the table unchanged |
| Ingest.InsertDalsIdempotent | scrape_2025_dal_links.py:46-54 | ingesting the same batch twice leaves the table of one ingestion |
| Ingest.InsertDalsCount | scrape_2025_dal_links.py:49-54 | the row count grows by the number of distinct batch URLs not already stored |
| Ingest.OnlyUnseenAdded | scrape_2025_dal_links.py:49-54 | with a row carrying `a`'s URL stored (whatever its title and timestamp) and `b`'s URL absent, the batch `[a, b]` appends only `b` |
| Notifier.Absolutise | dal_notifier.py:38 | a link starting with `/` gets the site root prepended, any other link is returned as is; the result never starts with `/` and ends with the link |
| Notifier.AbsolutiseIdempotent | dal_notifier.py:38 | absolutising twice equals absolutising once |
| Notifier.RelativeLinkResolves | dal_notifier.py:38 | `/docs/x.pdf` becomes `https://www.health.ny.gov/docs/x.pdf` |
| Notifier.LastSeenUrl | dal_notifier.py:24-28 | the pointer is the `last_url` of the first row, and absent when the table is empty |
| Notifier.UpdateLastSeen | dal_notifier.py:30-31 | every row with id 1 gets the new URL, every other row is unchanged, no row is added or removed |
| Notifier.UpdateWithoutTargetIsNoOp | dal_notifier.py:31 | with no id-1 row the update changes nothing |
| Notifier.UpdateIdempotent | dal_notifier.py:31 | writing the same URL twice equals writing it once |
| Notifier.ReadAfterUpdate | dal_notifier.py:24-31 | when the first row has id 1, the read after an update returns the new URL |
| Notifier.LetterExcerpt | dal_notifier.py:53 | the excerpt is a prefix of the letter, at most 4000 characters, and the whole letter when it is shorter |
| Notifier.Prompt | dal_notifier.py:49-54 | the prompt is the fixed preamble followed by the letter excerpt |
| Notifier.PromptKeepsShortLetters | dal_notifier.py:50-54 | a letter of at most 4000 characters is embedded whole; text past the first 4000 characters does not change the prompt |
| Notifier.PromptDeterminesExcerpt | dal_notifier.py:50-54 | two prompts are equal iff their letter excerpts are |
| Notifier.DeliveryOf | dal_notifier.py:85-88 | the mail step reports success iff the status is 200, and a failure otherwise |
| Notifier.Run | dal_notifier.py:91-103 | a run never adds, removes or re-keys pointer rows; it has external effects iff the absolutised link differs from the pointer |
| Notifier.UpToDateRunIsNoOp | dal_notifier.py:96-103 | when the link equals the pointer: no fetch, summary, mail or update, and the table is unchanged |
| Notifier.NewLetterRun | dal_notifier.py:96-101 | when they differ: fetch, summarise the prompt of the stripped text, mail, then write the pointer, whatever the mail status |
| Notifier.PointerAdvancesOnFailedSend | dal_notifier.py:85-101 | when the run's one send returns a status other than 200, the failure is reported, yet the pointer is advanced to the new URL |
| Notifier.SecondRunIsNoOp | dal_notifier.py:91-103 | with the id-1 row first, a second run on the same link does nothing |
| Notifier.OtherRowFirstNotifiesEveryRun | dal_notifier.py:24-31 | when the row read first is not the id-1 row, a run leaves that row as it was, and the next run on the same link notifies again |
| Notifier.NoTargetRowNotifiesEveryRun | dal_notifier.py:30-31 | without an id-1 row the pointer never moves and the next run on the same link notifies again |
| Notifier.FirstRunRecordsLetter | dal_notifier.py:91-103 | from a fresh id-1 row with a null pointer, the first run notifies and records the letter's URL |

## Left out

- Browser automation (page load, selectors, clicks, the one-second sleep, closing the browser): the scraped anchors and the `href` of the first anchor matching `a[href*='dear_administrator_letters']` are inputs.
- `urljoin`: its reference-resolution rules are library code, so it is the opaque `join` parameter of `ShapeRecords`.
- `datetime.utcnow().isoformat()`: clock-dependent, so it is the `clock` parameter.
- The Supabase client and the network: both tables are in-memory sequences; connection failures and raised exceptions are not modelled.
- Both scripts name their table `dal_tracker`, but with different columns; the model keeps the letters table and the pointer table apart because the shared schema is not visible.
- A missing `last_url` key (`dal_notifier.py:27`), a `None` `href` in the notifier (`link.startswith` at `dal_notifier.py:38`) or `None` anchor text in the harvester (`title.strip()` at `scrape_2025_dal_links.py:37`) raises in Python; those crash paths are not modelled.
- In the harvester a `None` `href` makes `urljoin` return the base URL, so such an anchor yields a record with the site root as its URL; `Link.href` is a string, so this case is not modelled.
- Notifier.LastSeenUrl: the pointer read (`dal_notifier.py:25`) has no ordering, so the "first" row is whatever the store returns first. The model takes the table's sequence order and assumes an update keeps that order, which an SQL store does not promise. `ReadAfterUpdate`, `PointerAdvancesOnFailedSend` and `SecondRunIsNoOp` rely on this for tables of more than one row. With the id-1 row not read first, the pointer the run reads never changes, and every run notifies again; see `OtherRowFirstNotifiesEveryRun`.
- The OpenAI chat call and the Resend HTTP call: opaque functions in `Services`; only the mail status matters, and only for the console report.
- The HTML body of the email, the fixed sender and recipient, environment-variable loading, client construction and console printing.
- `extract_text_from_dal` is modelled as the stripped page text of the URL, given by the `pageText` parameter. The code (`dal_notifier.py:45`) calls `Stagehand.get_text("body")` on the class, not on the instance opened and navigated at `:43-44`; the model assumes that call returns the letter's body text.

=== FILE: harvest.dfy ===
/**
 Record shaping in the link harvester: every anchor scraped from the 2025
 section of the listing page becomes one `dal_tracker` record, in document
 order. The page itself, `urljoin` and the UTC clock are outside the model:
 the anchors arrive as data and the other two are parameters.
 */
module Harvest {
  import opened Strings

  /** The site root the harvester resolves every `href` against. */
  const BaseUrl: string := "https://www.health.ny.gov"

  /** One scraped anchor: its visible text and its raw `href` attribute. */
  datatype Link = Link(text: string, href: string)

  /** A row of the `dal_tracker` letters table. */
  datatype DalRecord = DalRecord(title: string, url: string, updatedAt: string)

  /**
   The harvester's loop over the scraped anchors. `join` stands for
   `urljoin` and `clock(i)` for the timestamp read while shaping the
   `i`-th anchor.
   */
  method ShapeRecords(links: seq<Link>, join: (string, string) -> string, clock: nat -> string)
    returns (results: seq<DalRecord>)
    ensures |results| == |links|
    ensures forall i :: 0 <= i < |links| ==>
              && results[i].title == Strip(links[i].text)
              && results[i].url == Strip(join(BaseUrl, links[i].href))
              && results[i].updatedAt == clock(i)
  {
    results := [];
    var i := 0;
    while i < |links|
      invariant 0 <= i <= |links|
      invariant |results| == i
      invariant forall k :: 0 <= k < i ==>
                  && results[k].title == Strip(links[k].text)
                  && results[k].url == Strip(join(BaseUrl, links[k].href))
                  && results[k].updatedAt == clock(k)
    {
      var link := links[i];
      var fullUrl := join(BaseUrl, link.href);
      results := results + [DalRecord(Strip(link.text), Strip(fullUrl), clock(i))];
      i := i + 1;
    }
  }
}

=== FILE: ingest.dfy ===
/**
 The dedup ingestor: harvested records are appended to the `dal_tracker`
 letters table one at a time, each only if no row with the same `dal_url`
 is there at the moment it is checked. The table is an in-memory sequence
 of rows in insertion order.
 */
module Ingest {
  import opened Harvest

  type Table = seq<DalRecord>

  /** Some row of `t` carries `url` (the `.eq("dal_url", …)` lookup finds data). */
  predicate HasUrl(t: seq<DalRecord>, url: string) {
    exists i :: 0 <= i < |t| && t[i].url == url
  }

  /** The `dal_url` values of `t`. */
  function UrlSet(t: seq<DalRecord>): set<string> {
    set i | 0 <= i < |t| :: t[i].url
  }

  /** No two rows share a `dal_url`. */
  predicate NoDupUrls(t: seq<DalRecord>) {
    forall i, j :: 0 <= i < j < |t| ==> t[i].url != t[j].url
  }

  /**
   One iteration of the ingest loop: look `d`'s URL up, insert `d` only
   when the lookup comes back empty.
   */
  function InsertOne(t: Table, d: DalRecord): (r: Table)
    ensures |t| <= |r| <= |t| + 1 && r[..|t|] == t
    ensures |r| == |t| + 1 <==> !HasUrl(t, d.url)
    ensures |r| == |t| + 1 ==> r[|t|] == d
    ensures HasUrl(r, d.url)
  {
    if HasUrl(t, d.url) then t else t + [d]
  }

  /** The whole ingest loop, left to right over the batch. */
  function InsertDals(t: Table, ds: seq<DalRecord>): (r: Table)
    ensures |t| <= |r| && r[..|t|] == t
    decreases |ds|
  {
    if ds == [] then t else InsertDals(InsertOne(t, ds[0]), ds[1..])
  }

  /**
   Reference definition of what a batch adds: in input order, every record
   whose URL is neither in the original table nor carried by an earlier
   record of the batch.
   */
  function NewRecords(t: Table, ds: seq<DalRecord>): seq<DalRecord>
    decreases |ds|
  {
    if ds == [] then []
    else
      var prev, d := ds[..|ds| - 1], ds[|ds| - 1];
      NewRecords(t, prev) + (if HasUrl(t, d.url) || HasUrl(prev, d.url) then [] else [d])
  }

  /** Ingesting a batch and then one more record is ingesting the longer batch. */
  lemma {:induction false} InsertDalsSnoc(t: Table, ds: seq<DalRecord>, d: DalRecord)
    ensures InsertDals(t, ds + [d]) == InsertOne(InsertDals(t, ds), d)
    decreases |ds|
  {
    if ds == [] {
      assert InsertDals(InsertOne(t, d), []) == InsertOne(t, d);
    } else {
      assert (ds + [d])[0] == ds[0];
      assert (ds + [d])[1..] == ds[1..] + [d];
      InsertDalsSnoc(InsertOne(t, ds[0]), ds[1..], d);
    }
  }

  lemma HasUrlAppend(a: seq<DalRecord>, b: seq<DalRecord>, url: string)
    ensures HasUrl(a + b, url) <==> HasUrl(a, url) || HasUrl(b, url)
  {
    if HasUrl(a, url) {
      var i :| 0 <= i < |a| && a[i].url == url;
      assert (a + b)[i].url == url;
    }
    if HasUrl(a + b, url) {
      var i :| 0 <= i < |a + b| && (a + b)[i].url == url;
      if i >= |a| {
        assert b[i - |a|].url == url;
      }
    }
    if HasUrl(b, url) {
      var i :| 0 <= i < |b| && b[i].url == url;
      assert (a + b)[|a| + i].url == url;
    }
  }

  /** After ingestion a URL is in the table iff it was there before or the batch carried it. */
  lemma {:induction false} HasUrlAfterInsert(t: Table, ds: seq<DalRecord>, url: string)
    ensures HasUrl(InsertDals(t, ds), url) <==> HasUrl(t, url) || HasUrl(ds, url)
    decreases |ds|
  {
    if ds != [] {
      var t' := InsertOne(t, ds[0]);
      HasUrlAfterInsert(t', ds[1..], url);
      assert ds == [ds[0]] + ds[1..];
      HasUrlAppend([ds[0]], ds[1..], url);
      if |t'| == |t| {
        assert t' == t;
      } else {
        assert t' == t + [ds[0]];
        HasUrlAppend(t, [ds[0]], url);
      }
    }
  }

  /**
   Append-only with an exact account of what is added: the final table is
   the old one followed by the reference list of new records.
   */
  lemma {:induction false} InsertDalsAppendsNew(t: Table, ds: seq<DalRecord>)
    ensures InsertDals(t, ds) == t + NewRecords(t, ds)
    decreases |ds|
  {
    if ds == [] {
    } else {
      var prev, d := ds[..|ds| - 1], ds[|ds| - 1];
      assert ds == prev + [d];
      InsertDalsAppendsNew(t, prev);
      InsertDalsSnoc(t, prev, d);
      HasUrlAfterInsert(t, prev, d.url);
      AppendStep(t, NewRecords(t, prev), d, HasUrl(t, d.url) || HasUrl(prev, d.url));
    }
  }

  lemma AppendStep(t: Table, added: seq<DalRecord>, d: DalRecord, seen: bool)
    requires HasUrl(t + added, d.url) <==> seen
    ensures InsertOne(t + added, d) == t + (added + (if seen then [] else [d]))
  {
    if !seen {
      assert t + added + [d] == t + (added + [d]);
    }
  }

  /**
   The record at position `i` of the batch is inserted — the table grows at
   its check, by that very record — iff no row with its URL exists at that
   moment: not in the original table and not among the batch's earlier records.
   */
  lemma InsertedIffUnseen(t: Table, ds: seq<DalRecord>, i: nat)
    requires i < |ds|
    ensures var before, after := InsertDals(t, ds[..i]), InsertDals(t, ds[..i + 1]);
            && (|after| == |before| + 1 <==> !HasUrl(t, ds[i].url) && !HasUrl(ds[..i], ds[i].url))
            && (|after| == |before| + 1 ==> after == before + [ds[i]])
            && (|after| != |before| + 1 ==> after == before)
  {
    assert ds[..i + 1] == ds[..i] + [ds[i]];
    InsertDalsSnoc(t, ds[..i], ds[i]);
    HasUrlAfterInsert(t, ds[..i], ds[i].url);
  }

  /** Every URL of the batch is in the table afterwards. */
  lemma AllUrlsPresent(t: Table, ds: seq<DalRecord>)
    ensures forall i :: 0 <= i < |ds| ==> HasUrl(InsertDals(t, ds), ds[i].url)
  {
    forall i | 0 <= i < |ds|
      ensures HasUrl(InsertDals(t, ds), ds[i].url)
    {
      HasUrlAfterInsert(t, ds, ds[i].url);
    }
  }

  /** Inserting one record keeps URLs unique. */
  lemma InsertOneNoDup(t: Table, d: DalRecord)
    requires NoDupUrls(t)
    ensures NoDupUrls(InsertOne(t, d))
  {
    var r := InsertOne(t, d);
    if |r| == |t| + 1 {
      forall i, j | 0 <= i < j < |r|
        ensures r[i].url != r[j].url
      {
        if j == |t| {
          assert r[i] == t[i];
        }
      }
    }
  }

  /** A table without duplicate URLs keeps none, even when the batch repeats a URL. */
  lemma {:induction false} NoDupPreserved(t: Table, ds: seq<DalRecord>)
    requires NoDupUrls(t)
    ensures NoDupUrls(InsertDals(t, ds))
    decreases |ds|
  {
    if ds != [] {
      InsertOneNoDup(t, ds[0]);
      NoDupPreserved(InsertOne(t, ds[0]), ds[1..]);
    }
  }

  /** A batch whose URLs are all present already leaves the table as it is. */
  lemma {:induction false} InsertPresentIsNoOp(t: Table, ds: seq<DalRecord>)
    requires forall i :: 0 <= i < |ds| ==> HasUrl(t, ds[i].url)
    ensures InsertDals(t, ds) == t
    decreases |ds|
  {
    if ds != [] {
      assert HasUrl(t, ds[0].url);
      assert InsertOne(t, ds[0]) == t;
      assert forall i :: 0 <= i < |ds[1..]| ==> ds[1..][i] == ds[i + 1];
      InsertPresentIsNoOp(t, ds[1..]);
    }
  }

  /** Running the ingestion twice on the same batch leaves the table of one run. */
  lemma InsertDalsIdempotent(t: Table, ds: seq<DalRecord>)
    ensures InsertDals(InsertDals(t, ds), ds) == InsertDals(t, ds)
  {
    AllUrlsPresent(t, ds);
    InsertPresentIsNoOp(InsertDals(t, ds), ds);
  }

  lemma UrlSetSnoc(ds: seq<DalRecord>, d: DalRecord)
    ensures UrlSet(ds + [d]) == UrlSet(ds) + {d.url}
  {
    var s := ds + [d];
    forall u | u in UrlSet(s)
      ensures u in UrlSet(ds) + {d.url}
    {
      var i :| 0 <= i < |s| && s[i].url == u;
      if i < |ds| {
        assert ds[i].url == u;
      }
    }
    forall u | u in UrlSet(ds) + {d.url}
      ensures u in UrlSet(s)
    {
      if u in UrlSet(ds) {
        var i :| 0 <= i < |ds| && ds[i].url == u;
        assert s[i].url == u;
      } else {
        assert s[|ds|].url == u;
      }
    }
  }

  lemma HasUrlIsMember(t: seq<DalRecord>, url: string)
    ensures HasUrl(t, url) <==> url in UrlSet(t)
  {
    if url in UrlSet(t) {
      var i :| 0 <= i < |t| && t[i].url == url;
    }
  }

  /**
   The table grows by exactly the number of distinct batch URLs that were
   not already present.
   */
  lemma {:induction false} InsertDalsCount(t: Table, ds: seq<DalRecord>)
    ensures |InsertDals(t, ds)| == |t| + |UrlSet(ds) - UrlSet(t)|
    decreases |ds|
  {
    if ds == [] {
      assert UrlSet(ds) == {};
    } else {
      var prev, d := ds[..|ds| - 1], ds[|ds| - 1];
      assert ds == prev + [d];
      InsertDalsCount(t, prev);
      InsertDalsSnoc(t, prev, d);
      HasUrlAfterInsert(t, prev, d.url);
      HasUrlIsMember(t, d.url);
      HasUrlIsMember(prev, d.url);
      UrlSetSnoc(prev, d);
      NewUrlCount(UrlSet(prev), UrlSet(t), d.url);
    }
  }

  lemma NewUrlCount(seen: set<string>, stored: set<string>, u: string)
    ensures |(seen + {u}) - stored| == |seen - stored| + (if u in seen || u in stored then 0 else 1)
  {
    if u in seen || u in stored {
      assert (seen + {u}) - stored == seen - stored;
    } else {
      assert (seen + {u}) - stored == (seen - stored) + {u};
    }
  }

  /**
   With a row carrying `a`'s URL stored — whatever its title and timestamp —
   and `b`'s URL absent, the batch `[a, b]` appends only `b`.
   */
  lemma OnlyUnseenAdded(t: Table, a: DalRecord, b: DalRecord)
    requires HasUrl(t, a.url) && !HasUrl(t, b.url) && a.url != b.url
    ensures InsertDals(t, [a, b]) == t + [b]
  {
    InsertDalsAppendsNew(t, [a, b]);
    assert [a, b][..1] == [a];
    assert NewRecords(t, [a]) == [] by {
      assert [a][..0] == [];
    }
    assert !HasUrl([a], b.url);
    assert NewRecords(t, [a, b]) == [b];
  }
}

=== FILE: notifier.dfy ===
/**
 The change notifier: one run reads the `href` of the first anchor on the
 listing page whose `href` contains `dear_administrator_letters`, absolutises
 it, compares it with the `last_url` pointer in the `dal_tracker` table and,
 when they differ, fetches the page, has it summarised, emails the summary
 and moves the pointer. The page, the language model and the mail service
 are the `Services` parameter; the pointer table is a sequence of rows in the
 order the store returns them.
 */
module Notifier {
  import opened Wrappers
  import opened Strings

  /** The host a site-relative letter link is prefixed with. */
  const SiteRoot: string := "https://www.health.ny.gov"

  /** How many characters of the letter go into the prompt. */
  const MaxLetterChars: nat := 4000

  /** The fixed instruction that precedes the letter in the prompt. */
  const PromptPreamble: string :=
    "You are summarizing a government compliance letter for assisted living staff.\n\n"
    + "Please provide a 3-5 bullet point TLDR summary of the following letter:\n\n"

  /** The HTTP status the mail step reports as a successful send. */
  const SentStatus: int := 200

  /** A row of the pointer table: its `id` and its nullable `last_url`. */
  datatype PointerRow = PointerRow(id: int, lastUrl: Option<string>)

  /**
   The external collaborators of one run: the page text of a URL, the
   language model's reply to a prompt, and the status the mail API returns
   for a (summary, url) message.
   */
  datatype Services = Services(
    pageText: string -> string,
    summarize: string -> string,
    sendStatus: (string, string) -> int)

  /** Externally visible steps of a run, in the order they happen. */
  datatype Effect =
    | FetchText(url: string)
    | Summarize(prompt: string)
    | SendEmail(summary: string, url: string)
    | AdvancePointer(url: string)

  /** What the mail step reports on the console. */
  datatype Delivery = Sent | SendFailed

  datatype Outcome = UpToDate | Notified(delivery: Delivery)

  datatype RunResult = RunResult(rows: seq<PointerRow>, effects: seq<Effect>, outcome: Outcome)

  predicate StartsWithSlash(s: string) {
    |s| > 0 && s[0] == '/'
  }

  /** A site-relative link is made absolute; anything else is kept as it is. */
  function Absolutise(link: string): (r: string)
    ensures !StartsWithSlash(r)
    ensures |link| <= |r| && r[|r| - |link|..] == link
    ensures r != link <==> StartsWithSlash(link)
    ensures r != link ==> r[..|r| - |link|] == SiteRoot
  {
    if StartsWithSlash(link) then SiteRoot + link else link
  }

  /** Absolutising an absolutised link changes nothing. */
  lemma AbsolutiseIdempotent(link: string)
    ensures Absolutise(Absolutise(link)) == Absolutise(link)
  {
  }

  /** A site-relative document path resolves onto the health department's host. */
  lemma RelativeLinkResolves()
    ensures Absolutise("/docs/x.pdf") == "https://www.health.ny.gov/docs/x.pdf"
  {
  }

  /** The pointer is the `last_url` of the first row the store returns, if any. */
  function LastSeenUrl(rows: seq<PointerRow>): (r: Option<string>)
    ensures r.Some? ==> rows != [] && r == rows[0].lastUrl
    ensures rows != [] && rows[0].lastUrl.Some? ==> r.Some?
  {
    if rows != [] then rows[0].lastUrl else None
  }

  /** `update({"last_url": url}).eq("id", 1)`: every row with id 1 gets the URL. */
  function UpdateLastSeen(rows: seq<PointerRow>, url: string): (r: seq<PointerRow>)
    ensures |r| == |rows|
    ensures forall i :: 0 <= i < |rows| ==> r[i].id == rows[i].id
    ensures forall i :: 0 <= i < |rows| && rows[i].id == 1 ==> r[i].lastUrl == Some(url)
    ensures forall i :: 0 <= i < |rows| && rows[i].id != 1 ==> r[i] == rows[i]
    decreases |rows|
  {
    if rows == [] then []
    else
      var head := if rows[0].id == 1 then rows[0].(lastUrl := Some(url)) else rows[0];
      [head] + UpdateLastSeen(rows[1..], url)
  }

  /** With no row whose id is 1 the update touches nothing. */
  lemma UpdateWithoutTargetIsNoOp(rows: seq<PointerRow>, url: string)
    requires forall i :: 0 <= i < |rows| ==> rows[i].id != 1
    ensures UpdateLastSeen(rows, url) == rows
  {
  }

  /** Writing the same URL twice is writing it once. */
  lemma UpdateIdempotent(rows: seq<PointerRow>, url: string)
    ensures UpdateLastSeen(UpdateLastSeen(rows, url), url) == UpdateLastSeen(rows, url)
  {
  }

  /** When the first row is the id-1 row, the read after an update sees the new URL. */
  lemma ReadAfterUpdate(rows: seq<PointerRow>, url: string)
    requires rows != [] && rows[0].id == 1
    ensures LastSeenUrl(UpdateLastSeen(rows, url)) == Some(url)
  {
  }

  /** `text[:4000]`: the leading part of the letter that goes into the prompt. */
  function LetterExcerpt(text: string): (r: string)
    ensures |r| <= MaxLetterChars && |r| <= |text|
    ensures r == text[..|r|]
    ensures |r| == MaxLetterChars || r == text
  {
    if |text| <= MaxLetterChars then text else text[..MaxLetterChars]
  }

  /** The summarisation prompt: the fixed preamble followed by the letter excerpt. */
  function Prompt(text: string): (r: string)
    ensures |PromptPreamble| <= |r| <= |PromptPreamble| + MaxLetterChars
    ensures r[..|PromptPreamble|] == PromptPreamble
    ensures r[|PromptPreamble|..] == LetterExcerpt(text)
  {
    PromptPreamble + LetterExcerpt(text)
  }

  /** A letter that fits is embedded whole; text after the first 4000 characters never matters. */
  lemma PromptKeepsShortLetters(text: string, tail: string)
    ensures |text| <= MaxLetterChars ==> Prompt(text) == PromptPreamble + text
    ensures |text| >= MaxLetterChars ==> Prompt(text + tail) == Prompt(text)
  {
    if |text| >= MaxLetterChars {
      assert (text + tail)[..MaxLetterChars] == text[..MaxLetterChars];
    }
  }

  /** Two prompts are equal exactly when the letter excerpts are. */
  lemma PromptDeterminesExcerpt(a: string, b: string)
    ensures Prompt(a) == Prompt(b) <==> LetterExcerpt(a) == LetterExcerpt(b)
  {
    if Prompt(a) == Prompt(b) {
      assert Prompt(a)[|PromptPreamble|..] == Prompt(b)[|PromptPreamble|..];
    }
  }

  /** The console report of the mail step: anything but status 200 is a failure (the response body is printed, not the status). */
  function DeliveryOf(status: int): (d: Delivery)
    ensures d == Sent <==> status == SentStatus
  {
    if status != SentStatus then SendFailed else Sent
  }

  /**
   One run of the notifier. `link` is the `href` of the first anchor on the
   listing page whose `href` contains `dear_administrator_letters`; nothing
   guarantees that anchor points at a letter rather than at the listing itself.
   */
  function Run(rows: seq<PointerRow>, link: string, svc: Services): (r: RunResult)
    ensures |r.rows| == |rows|
    ensures forall i :: 0 <= i < |rows| ==> r.rows[i].id == rows[i].id
    ensures r.effects == [] <==> LastSeenUrl(rows) == Some(Absolutise(link))
    ensures r.outcome == UpToDate <==> r.effects == []
  {
    var latestUrl := Absolutise(link);
    if Some(latestUrl) != LastSeenUrl(rows) then
      var text := Strip(svc.pageText(latestUrl));
      var prompt := Prompt(text);
      var summary := svc.summarize(prompt);
      var status := svc.sendStatus(summary, latestUrl);
      RunResult(
        UpdateLastSeen(rows, latestUrl),
        [FetchText(latestUrl), Summarize(prompt), SendEmail(summary, latestUrl), AdvancePointer(latestUrl)],
        Notified(DeliveryOf(status)))
    else
      RunResult(rows, [], UpToDate)
  }

  /** When the absolutised `href` of the first matching anchor is the one pointed at, a run does nothing at all. */
  lemma UpToDateRunIsNoOp(rows: seq<PointerRow>, link: string, svc: Services)
    requires LastSeenUrl(rows) == Some(Absolutise(link))
    ensures Run(rows, link, svc) == RunResult(rows, [], UpToDate)
  {
  }

  /**
   A new letter is fetched, summarised from the prompt of its stripped text,
   mailed, and only then is the pointer written — whatever status the mail
   API returned.
   */
  lemma NewLetterRun(rows: seq<PointerRow>, link: string, svc: Services)
    requires LastSeenUrl(rows) != Some(Absolutise(link))
    ensures var url := Absolutise(link);
            var prompt := Prompt(Strip(svc.pageText(url)));
            var summary := svc.summarize(prompt);
            var r := Run(rows, link, svc);
            && r.effects == [FetchText(url), Summarize(prompt), SendEmail(summary, url), AdvancePointer(url)]
            && r.rows == UpdateLastSeen(rows, url)
            && r.outcome == Notified(DeliveryOf(svc.sendStatus(summary, url)))
  {
  }

  /**
   The pointer advances even when the send fails: with the id-1 row first,
   a run whose one send returns a status other than 200 reports the failure
   and still leaves the pointer at the new URL.
   */
  lemma PointerAdvancesOnFailedSend(rows: seq<PointerRow>, link: string, svc: Services)
    requires rows != [] && rows[0].id == 1
    requires LastSeenUrl(rows) != Some(Absolutise(link))
    requires var url := Absolutise(link);
             svc.sendStatus(svc.summarize(Prompt(Strip(svc.pageText(url)))), url) != SentStatus
    ensures Run(rows, link, svc).outcome == Notified(SendFailed)
    ensures LastSeenUrl(Run(rows, link, svc).rows) == Some(Absolutise(link))
  {
    ReadAfterUpdate(rows, Absolutise(link));
  }

  /**
   With the id-1 row first, a second run on the same listing does nothing,
   whatever the collaborators answer this time.
   */
  lemma SecondRunIsNoOp(rows: seq<PointerRow>, link: string, svc1: Services, svc2: Services)
    requires rows != [] && rows[0].id == 1
    ensures var once := Run(rows, link, svc1);
            Run(once.rows, link, svc2) == RunResult(once.rows, [], UpToDate)
  {
    var once := Run(rows, link, svc1);
    if once.effects != [] {
      ReadAfterUpdate(rows, Absolutise(link));
    }
  }

  /**
   Without an id-1 row the update has nothing to write, so the pointer never
   moves and every run on a new letter mails it again.
   */
  lemma NoTargetRowNotifiesEveryRun(rows: seq<PointerRow>, link: string, svc1: Services, svc2: Services)
    requires forall i :: 0 <= i < |rows| ==> rows[i].id != 1
    requires LastSeenUrl(rows) != Some(Absolutise(link))
    ensures Run(rows, link, svc1).rows == rows
    ensures Run(Run(rows, link, svc1).rows, link, svc2).effects != []
  {
    UpdateWithoutTargetIsNoOp(rows, Absolutise(link));
  }

  /**
   When the row read first is not the id-1 row, the update never reaches
   what is read, so a second run on the same new link notifies again.
   */
  lemma OtherRowFirstNotifiesEveryRun(rows: seq<PointerRow>, link: string, svc1: Services, svc2: Services)
    requires rows != [] && rows[0].id != 1
    requires LastSeenUrl(rows) != Some(Absolutise(link))
    ensures Run(rows, link, svc1).rows[0] == rows[0]
    ensures Run(Run(rows, link, svc1).rows, link, svc2).effects != []
  {
  }

  /** A fresh pointer row (id 1, `last_url` null) makes the first run notify and record the letter. */
  lemma FirstRunRecordsLetter(svc: Services)
    ensures var r := Run([PointerRow(1, None)], "https://x/dal1", svc);
            && r.effects != []
            && LastSeenUrl(r.rows) == Some("https://x/dal1")
  {
    assert !StartsWithSlash("https://x/dal1");
  }
}

=== FILE: strings.dfy ===
/**
 This module models Python's `str.strip()` with no argument: it removes
 leading and trailing characters for which `str.isspace()` is true.
 */
module Strings {

  /** The characters Python's `str.isspace()` accepts. */
  predicate IsSpace(c: char) {
    var n := c as int;
    || (9 <= n <= 13)         // \t \n \v \f \r
    || (0x1C <= n <= 0x20)    // file/group/record/unit separators, space
    || n == 0x85 || n == 0xA0 || n == 0x1680
    || (0x2000 <= n <= 0x200A)
    || n == 0x2028 || n == 0x2029 || n == 0x202F || n == 0x205F || n == 0x3000
  }

  predicate AllSpace(s: string) {
    forall i :: 0 <= i < |s| ==> IsSpace(s[i])
  }

  /** Neither the first nor the last character is whitespace. */
  predicate Trimmed(s: string) {
    s == [] || (!IsSpace(s[0]) && !IsSpace(s[|s| - 1]))
  }

  /** `m` occurs in `s` at offset `k`, with only whitespace before and after it. */
  predicate PaddedAt(s: string, m: string, k: int) {
    && 0 <= k <= |s| - |m|
    && (forall i :: 0 <= i < |m| ==> s[k + i] == m[i])
    && (forall i :: 0 <= i < k ==> IsSpace(s[i]))
    && (forall i :: k + |m| <= i < |s| ==> IsSpace(s[i]))
  }

  /** `s` is `m` with nothing but whitespace on either side. */
  predicate PaddedBy(s: string, m: string) {
    exists k | 0 <= k <= |s| - |m| :: PaddedAt(s, m, k)
  }

  /**
   Python's `s.strip()`: whitespace is cut from the front, then from the
   back, until neither end is whitespace.
   */
  function Strip(s: string): (r: string)
    ensures Trimmed(r)
    ensures |r| <= |s|
    decreases |s|
  {
    if |s| > 0 && IsSpace(s[0]) then Strip(s[1..])
    else if |s| > 0 && IsSpace(s[|s| - 1]) then Strip(s[..|s| - 1])
    else s
  }

  /** What `strip()` returns is an infix of its argument with only whitespace around it. */
  lemma {:induction false} StripPadded(s: string)
    ensures PaddedBy(s, Strip(s))
    decreases |s|
  {
    if |s| > 0 && IsSpace(s[0]) {
      StripPadded(s[1..]);
      PaddedFront(s, Strip(s));
    } else if |s| > 0 && IsSpace(s[|s| - 1]) {
      StripPadded(s[..|s| - 1]);
      PaddedBack(s, Strip(s));
    } else {
      assert PaddedAt(s, s, 0);
    }
  }

  lemma PaddedFront(s: string, r: string)
    requires |s| > 0 && IsSpace(s[0]) && PaddedBy(s[1..], r)
    ensures PaddedBy(s, r)
  {
    var t := s[1..];
    var k :| 0 <= k <= |t| - |r| && PaddedAt(t, r, k);
    assert forall i :: 0 <= i < |t| ==> s[i + 1] == t[i];
    assert forall i :: 1 <= i < |s| ==> s[i] == t[i - 1];
    assert PaddedAt(s, r, k + 1);
  }

  lemma PaddedBack(s: string, r: string)
    requires |s| > 0 && IsSpace(s[|s| - 1]) && PaddedBy(s[..|s| - 1], r)
    ensures PaddedBy(s, r)
  {
    var t := s[..|s| - 1];
    var k :| 0 <= k <= |t| - |r| && PaddedAt(t, r, k);
    assert forall i :: 0 <= i < |t| ==> s[i] == t[i];
    assert PaddedAt(s, r, k);
  }

  /**
   The strip of `s` is the one trimmed infix with only whitespace around it:
   any decomposition `s == pre + m + post` of that shape has `m == Strip(s)`.
   */
  lemma {:induction false} StripUnique(pre: string, m: string, post: string)
    requires AllSpace(pre) && AllSpace(post) && Trimmed(m) && m != []
    ensures Strip(pre + m + post) == m
    decreases |pre| + |post|
  {
    var s := pre + m + post;
    if pre != [] {
      assert s[0] == pre[0];
      assert s[1..] == pre[1..] + m + post;
      StripUnique(pre[1..], m, post);
    } else if post != [] {
      assert s == m + post;
      assert s[0] == m[0] && s[|s| - 1] == post[|post| - 1];
      assert s[..|s| - 1] == [] + m + post[..|post| - 1];
      StripUnique([], m, post[..|post| - 1]);
    } else {
      assert s == m;
    }
  }

  /** An already trimmed string is its own strip. */
  lemma StripTrimmed(s: string)
    requires Trimmed(s)
    ensures Strip(s) == s
  {
  }

  /** Stripping twice is the same as stripping once. */
  lemma StripIdempotent(s: string)
    ensures Strip(Strip(s)) == Strip(s)
  {
    StripTrimmed(Strip(s));
  }
}

=== FILE: wrappers.dfy ===
/** Python's `None`-or-value, as used for nullable columns and lookups. */
module Wrappers {

  datatype Option<+T> = None | Some(value: T)
}
